=== FILE: README.md ===
# probe: the interface registry, the pagination cursor and the custom message loop

This project is a Dafny model of three parts of the `probe` Cosmos client, with proofs about them.

**The polymorphic type registry.** `ProbeInterfaceRegistry` is in `client/codec/types/interface_registry.go`. It keeps four tables:
- protobuf interface names to interface types;
- interface types to their type-URL → concrete-type bindings;
- concrete types to their interface;
- a global type-URL → concrete-type table.

It registers implementations under an interface. It rejects a conflicting binding within one interface by panicking. It answers the queries `TypeURLIsRegistered`, `EnsureRegistered`, `Resolve`, `ListAllInterfaces` and `ListImplementations`. It decodes `Any` envelopes in `UnpackAny`, recursively through the decoded message's own `Any` fields.

**The pagination cursor.** `MakeNextKey` in `utils/cosmos.go` gives the position after the current page as a big-endian unsigned integer with its leading zero bytes cut off. It gives nil when there is no further page.

**The custom type-URL loop of `MakeCodec`.** This is `client/encoding.go`. Every entry of a custom message registry is registered against `sdk.Msg`. Registration is refused if the entry's type URL is already in the global type-URL table.

Modules:
- `GoModel` (`go_model.dfy`) holds the shared vocabulary.
  - Go types are `Named` or `Ptr`.
  - Messages hold plain bytes and `Any` fields.
  - A `Runtime` value bundles the reflection and protobuf functions the registry calls: assignability, `proto.MessageName`, the proto-message check, `proto.Unmarshal`, the nested-unpack capability and `NewAnyWithValue`.
  - A call's result is an `Outcome`: a value, an error, or a panic.
- `Catalog` (`catalog.dfy`) has the four tables as one value `Tables`. The registration operations and queries are functions over it. It also defines the invariant `Consistent` that registration keeps:
  - interface names denote pointers to interfaces;
  - every per-interface binding is also in the global table;
  - every bound type is assignable to its interface.
- `Unpacking` (`unpacking.dfy`) describes what `UnpackAny` does as a function of the tables.
- `InterfaceRegistry` (`interface_registry.dfy`) is the registry as a class.
  - Its four map fields are updated in place.
  - The `Any` envelope is an object that `UnpackAny` overwrites.
  - The target variable is a `Slot` object that `UnpackAny` stores into.
  - Every method is proved to leave exactly the state that the `Catalog`/`Unpacking` function describes.
- `Encoding` (`encoding.dfy`) is the `MakeCodec` loop, as a method over a registry.
- `Pagination` (`pagination.dfy`) is `MakeNextKey`.

The model follows the code in these places:
- Type-URL uniqueness is checked only within one interface's table. The same URL can be bound to different types under two interfaces, and then the global table and the implementation-to-interface table keep the later write (`Catalog.CrossInterfaceOverwrite`). The doc comments of `RegisterImplementations`, `RegisterCustomTypeURL` and `registerImpl` (`interface_registry.go:64-65`, `76-77`, `90-91`) promise a panic when different concrete types are registered under the same type URL. The code keeps that promise only within one interface.
- Interface names are not unique either: `RegisterInterface` overwrites an earlier entry for the same name.
- `UnpackAny` is not free of side effects on failure. When `NewAnyWithValue` fails, the target variable has already been written (`interface_registry.go:206-212`), and the model says so: in `Unpack`, `bound` is set together with `PackFailed`.
- `bytes.TrimLeft` returns nil when it cuts every byte. So `MakeNextKey` gives nil, the same as "no next page", when the wrapped `offset+limit` is zero (for example `offset = limit = 0`) and below `total`.

## Model

| member | source | states |
|---|---|---|
| Catalog.TypeURLIsRegistered | client/codec/types/interface_registry.go:82-85 | True exactly when the URL is in the global table. Where every per-interface binding is also in the global table, a URL it rejects is bound under no interface. |
| Catalog.DerivedTypeURL | client/codec/types/interface_registry.go:68 | The URL is `/` followed by the message name, so it is never empty. |
| Catalog.Resolve | client/codec/types/interface_registry.go:231-243 | An error that the URL cannot be resolved exactly when the URL is not in the global table. For a registered URL: a panic exactly when its type is not a pointer, and success exactly when it is a pointer to a protobuf message; the remaining case is the "can't resolve" error. Success returns a fresh zero value of the registered type. |
| Catalog.EnsureRegistered | client/codec/types/interface_registry.go:49-59 | Never panics. Succeeds exactly when the type is a pointer with a registered interface. The "not a pointer" error comes exactly for non-pointers. |
| Catalog.RegisterImpl | client/codec/types/interface_registry.go:92-126 | Succeeds exactly when `iface` is a pointer, `impl` is assignable to its element type, and the URL is unbound or bound to the same type in that interface's table. On a panic no table changes. On success the URL is bound in all four tables, `TypeURLIsRegistered` holds, `EnsureRegistered` accepts a pointer `impl`, `Resolve` yields a zero `impl`, no other URL or interface table changes, and `Consistent` is kept. The interface's own table gains exactly `url`, and the implementation-to-interface table changes only at `impl`. |
| Catalog.RegisterImplementations | client/codec/types/interface_registry.go:66-71 | Interface names are unchanged and no URL is removed. Every URL it adds starts with `/`. `Consistent` is kept. |
| Catalog.RegisterInterface | client/codec/types/interface_registry.go:36-44 | An argument that is not a pointer to an interface panics with nothing written. Otherwise the name is recorded (overwriting an earlier one) and the result is `RegisterImplementations` on the updated tables. `Consistent` is kept. |
| Catalog.RegisterImplFresh | client/codec/types/interface_registry.go:122-125 | Binding a URL new to the interface's table writes exactly the four updated tables. |
| Catalog.UnregisteredIsUnbound | client/codec/types/interface_registry.go:122-123 | In a consistent registry, a URL missing from the global table is bound under no interface. |
| Catalog.RegisterImplAgain | client/codec/types/interface_registry.go:104-125 | Registering a binding already in place is a no-op that does not panic. |
| Catalog.BoundSurvivesRegisterImpl | client/codec/types/interface_registry.go:108-125 | A successful registration keeps every earlier binding of the same interface. |
| Catalog.RegisterImplementationsBinds | client/codec/types/interface_registry.go:66-71 | After success, every listed type is bound under `"/" + MessageName`. |
| Catalog.BoundRegisterImplementations | client/codec/types/interface_registry.go:66-71 | After success, every binding of the interface that was in place before is still in place. |
| Catalog.NoOpWhenAllBound | client/codec/types/interface_registry.go:66-71 | When every listed type is already bound, registering the list changes nothing. |
| Catalog.RegisterImplementationsIdempotent | client/codec/types/interface_registry.go:66-71 | Registering the same list a second time after it went through changes nothing. |
| Catalog.CrossInterfaceOverwrite | client/codec/types/interface_registry.go:94-124 | The same URL bound to two types under two interfaces is accepted. The global table keeps the later type, and each interface table keeps its own. |
| Unpacking.Unpack | client/codec/types/interface_registry.go:155-226 | Each outcome of `UnpackAny`. (1) A nil envelope or empty URL succeeds, touching nothing. (2) A non-pointer target is an error. (3) An assignable cached value is stored and the envelope kept. (4) A missing interface table, or a URL missing from it, is an error touching nothing. (5) The envelope is rewritten exactly on success through decoding. (6) Panics touch nothing. (7) A stored value comes with an error only when re-packing failed. (8) A decoded value has the type bound to the URL. (9) The rewritten envelope is the re-packed one, with the original URL kept in place of `"/"`. (10) A URL bound to a non-pointer type panics; one bound to a pointer that is not a protobuf message is an error. (11) A payload that fails to decode is that decoding error, touching nothing. (12) A decoded payload has its own envelopes unpacked first; a failure there is returned, touching nothing; a type not assignable to the target panics; otherwise the nested-unpacked message is what is stored, and the call succeeds exactly when it can be re-packed. |
| Unpacking.KeptTypeURL | client/codec/types/interface_registry.go:214-220 | The envelope keeps the re-derived URL, or the original one when the re-derived one is the bare `"/"`. The result is `"/"` only when the original URL was. |
| Unpacking.UnpackStoresDecodedPayload | client/codec/types/interface_registry.go:190-206 | On the decode path the stored message has the bound type and the decoded payload's plain fields. Its `Any` fields are the payload's own, left as decoded when the type does not unpack nested envelopes, and otherwise each one exactly what unpacking it on its own leaves it, with success. |
| Unpacking.UnpackInterfaces | client/codec/types/interface_registry.go:245-252 | Keeps the message's type, its plain fields, the number of its `Any` fields and their interface types. A message whose type does not implement `UnpackInterfacesMessage` comes back unchanged with success. One that does, with the depth bound spent, comes back unchanged with `DepthExceeded`. Otherwise its `Any` fields are replaced by what unpacking them one level deeper gives, with that status. |
| Unpacking.UnpackFields | client/codec/types/interface_registry.go:247-252 | The message's own `UnpackInterfaces`, called at line 249: keeps the number of `Any` fields and each field's interface type. |
| Unpacking.UnpackFieldsFirstFailure | client/codec/types/interface_registry.go:247-252 | A failure on the first field is returned with every field as it was. |
| Unpacking.UnpackFieldsFailsAt | client/codec/types/interface_registry.go:247-252 | When the fields before position `k` unpack and the field at `k` does not, the returned status is that field's own error or panic, passed on unchanged. |
| Unpacking.UnpackInterfacesPointwise | client/codec/types/interface_registry.go:245-252 | When the nested unpack of a message succeeds, the depth bound was not spent, and each `Any` field is exactly what unpacking it on its own, one level deeper, leaves it. |
| Unpacking.UnpackFieldsPointwise | client/codec/types/interface_registry.go:247-250 | When a message's `Any` fields all unpack, each field ends up as unpacking it on its own leaves it. |
| Unpacking.UnpackFieldsSucceed | client/codec/types/interface_registry.go:247-252 | The sequence of `Any` fields unpacks successfully exactly when every field unpacks successfully on its own. |
| Unpacking.UnpackInterfacesSucceeds | client/codec/types/interface_registry.go:245-252 | A message implementing `UnpackInterfacesMessage`, with depth left, unpacks successfully when each of its `Any` fields does on its own, one level deeper. With `UnpackInterfacesPointwise`, which gives the other direction, this is an if-and-only-if. |
| Unpacking.UnpackFuelMonotone | client/codec/types/interface_registry.go:196-204 | Unless the depth bound was hit, a larger bound gives the same result. So the bound only cuts off recursion. |
| Unpacking.UnpackInterfacesFuelMonotone | client/codec/types/interface_registry.go:245-252 | The same for the nested unpack of one message. |
| Unpacking.UnpackFieldsFuelMonotone | client/codec/types/interface_registry.go:247-250 | The same for a message's sequence of `Any` fields. |
| Unpacking.UnpackNeverSetPanics | client/codec/types/interface_registry.go:181-206 | In a consistent registry, unpacking panics only when a bound type is not a pointer. Storing the decoded value never panics. |
| Unpacking.UnpackInterfacesNeverSetPanics | client/codec/types/interface_registry.go:245-252 | The same for the nested unpack of one message. |
| Unpacking.UnpackFieldsNeverSetPanics | client/codec/types/interface_registry.go:247-250 | The same for a message's sequence of `Any` fields. |
| Unpacking.UnpackReadsOnlyInterfaceImpls | client/codec/types/interface_registry.go:181-188 | Unpacking consults only the per-interface tables. Two registries that agree on them unpack alike, whatever their global tables hold. |
| Unpacking.UnpackInterfacesReadsOnlyInterfaceImpls | client/codec/types/interface_registry.go:245-252 | The same for the nested unpack of one message. |
| Unpacking.UnpackFieldsReadsOnlyInterfaceImpls | client/codec/types/interface_registry.go:247-250 | The same for a message's sequence of `Any` fields. |
| InterfaceRegistry.ProbeInterfaceRegistry.constructor | client/codec/types/interface_registry.go:24-34 | A new registry has all four tables empty and is consistent. |
| InterfaceRegistry.ProbeInterfaceRegistry.RegisterInterface | client/codec/types/interface_registry.go:36-44 | Leaves the tables and the panic that `Catalog.RegisterInterface` gives for the old tables, and keeps `Valid`. |
| InterfaceRegistry.ProbeInterfaceRegistry.RegisterImplementations | client/codec/types/interface_registry.go:66-71 | Its loop leaves what `Catalog.RegisterImplementations` gives for the old tables, stopping at the first panic, and keeps `Valid`. |
| InterfaceRegistry.ProbeInterfaceRegistry.RegisterCustomTypeURL | client/codec/types/interface_registry.go:78-80 | Leaves what `Catalog.RegisterImpl` gives for the URL taken verbatim. |
| InterfaceRegistry.ProbeInterfaceRegistry.RegisterImpl | client/codec/types/interface_registry.go:92-126 | Its checks and in-place writes leave exactly what `Catalog.RegisterImpl` gives, and keep `Valid`. |
| InterfaceRegistry.ProbeInterfaceRegistry.ListAllInterfaces | client/codec/types/interface_registry.go:128-135 | Returns every registered interface name exactly once, in any order. |
| InterfaceRegistry.ProbeInterfaceRegistry.ListImplementations | client/codec/types/interface_registry.go:137-153 | An unknown name gives the empty list. Otherwise the result is exactly the URLs bound under that interface, each once, in any order. An interface without a table also gives the empty list. |
| InterfaceRegistry.ProbeInterfaceRegistry.UnpackAny | client/codec/types/interface_registry.go:155-226 | The status it returns, the envelope it leaves and the value it stores into the target are those `Unpacking.Unpack` gives for the old envelope. So on the decode path the target receives the decoded payload with its nested envelopes unpacked (`Unpacking.UnpackStoresDecodedPayload`), and a decoding or nested failure is returned with the target left alone. |
| Encoding.WithCustomMsgsRegisters | client/encoding.go:34-41 | After registering the custom entries, a URL is registered exactly when it was before or is a custom key. Every custom URL is bound to its own type both in the global table and under `sdk.Msg`. No other interface's table changes. |
| Encoding.RegisterCustomStep | client/encoding.go:38 | Registering a fresh custom URL against `sdk.Msg` on top of earlier custom entries does not panic, and gives the tables for those entries plus this one. |
| Encoding.RegisterCustomLoopStep | client/encoding.go:34-39 | The loop step in terms of the registry's tables. A URL absent from a consistent registry's global table is registered without conflict. |
| Encoding.RegisteredDuringLoop | client/encoding.go:35 | While the loop runs, a URL counts as registered exactly when it was registered before the loop or it is a custom entry already handled. So a URL the loop rejects was registered before the loop. |
| Encoding.RegisterCustomMsg | client/encoding.go:38 | Registering one fresh custom entry does not panic. It leaves the registry consistent, with tables equal to those for the handled entries plus this one. |
| Encoding.MakeCodec | client/encoding.go:34-41 | Fails, returning no codec, exactly when some custom URL was already in the global table, naming that URL; this holds whatever the map's iteration order. On success every custom URL is registered and bound to its type under `sdk.Msg`, the tables are those of `WithCustomMsgs`, and no registration panicked. The registry stays consistent. |
| Pagination.AddUint64 | utils/cosmos.go:30-34 | Go's `uint64` addition: the exact sum when it fits, else the sum minus 2^64. |
| Pagination.ToBigEndian | utils/cosmos.go:35-36 | `PutUint64` writes exactly 8 bytes. |
| Pagination.TrimLeftZeros | utils/cosmos.go:37 | Gives nil exactly when every byte is zero. Otherwise it gives a non-empty suffix of the input whose first byte is non-zero. |
| Pagination.BigEndianRoundTrip | utils/cosmos.go:35-36 | Reading back the big-endian encoding of a value that fits gives the value. |
| Pagination.BigEndianRoundTripBytes | utils/cosmos.go:35-36 | Encoding the value a byte string denotes, at its length, gives the string back. |
| Pagination.TrimPreservesValue | utils/cosmos.go:37 | Cutting the leading zero bytes does not change the value denoted. |
| Pagination.PutUint64RoundTrip | utils/cosmos.go:34-36 | Reading back the 8 bytes `PutUint64` writes gives the `uint64` value. |
| Pagination.MakeNextKey | utils/cosmos.go:29-38 | Nil when the wrapped `offset+limit` is at least `total`. A key is one to eight bytes with a non-zero first byte. |
| Pagination.MakeNextKeySpec | utils/cosmos.go:29-38 | Nil exactly when the wrapped `offset+limit` is at least `total` or is zero. Otherwise one to eight bytes with a non-zero first byte that read back as the wrapped sum, and no shorter byte string reads back as that sum. |
| Pagination.FirstPageKey | utils/cosmos.go:29-38 | `(0, 10, 35)` gives `[0x0A]`. |
| Pagination.LastPageKeys | utils/cosmos.go:30-32 | `(30, 10, 35)` and `(0, 35, 35)` give nil. |
| Pagination.WrappedKey | utils/cosmos.go:29-38 | `(2^64-1, 2, 35)` wraps to the key `[0x01]`. |

## Left out

- Go reflection, protobuf decoding, `proto.MessageName` and `NewAnyWithValue` are not modelled. They are the fields of a `Runtime` value, and nothing is assumed about them beyond being functions.
- The embedded Cosmos `InterfaceRegistry` and its other methods are foreign code and are not part of this model.
- A message's own `UnpackInterfaces` method is foreign. The model takes it to unpack each `Any` field in order, against that field's interface type, stopping at the first error. Messages whose method does anything else, such as skipping fields or unpacking a field into a differently typed variable, are not modelled.
- Unpacking.Unpack: the Go recursion has no depth bound. The model threads a depth (`fuel`) and reports `DepthExceeded` when it runs out. The fuel lemmas show that a larger bound never changes a result that did not hit the bound.
- The `iface` argument of `UnpackAny` is either a non-pointer or a pointer to a variable. A nil typed pointer, and a nil `iface`, are not modelled.
- `UnpackAny` passes the registry itself as the unpacker for nested envelopes. The model uses the same tables for the nested calls, which is what that amounts to. The nested envelopes are values inside the decoded message, not shared objects.
- Go types are either named types or pointers. Arrays, slices, maps and channels, on which `Elem` would not panic, are not modelled.
- Panic messages are reduced to a reason; error messages are reduced to an error kind with its URL or type.
- `MakeCodec` lines 26-32 (module wiring, amino and `std` registration) are foreign. The loop starts from any consistent registry, and `MakeCodecConfig` is not part of this model.
- Encoding.MakeCodec requires each custom message type to be assignable to `sdk.Msg`. The Go map's static type `map[string]sdkTypes.Msg` guarantees this.
- There is no locking in the registry, and concurrent use is not modelled.
- `TxBytesToProto`, the query and RPC layer, the configuration lists, the logger and the integration tests are outside the modelled core.

=== FILE: catalog.dfy ===
/**
  The four tables of `ProbeInterfaceRegistry` as one value, the registration
  operations as functions from tables to tables, and the read-only queries.
  The class in module InterfaceRegistry updates its fields exactly as these
  functions say.
 */
module Catalog {
  import opened GoModel

  /** interfaceNames: protobuf interface name -> pointer-to-interface type;
      interfaceImpls: interface type -> (type URL -> concrete type);
      implInterfaces: concrete type -> interface type;
      typeURLMap: type URL -> concrete type. */
  datatype Tables = Tables(
    interfaceNames: map<string, GoType>,
    interfaceImpls: map<GoType, map<string, GoType>>,
    implInterfaces: map<GoType, GoType>,
    typeURLMap: map<string, GoType>)

  /** The state after a registration call, and the panic that ended it, if any. */
  datatype Registered = Registered(tables: Tables, panic: Option<PanicReason>)

  /** The binding table of one interface; a missing table reads as empty. */
  function ImplsOf(t: Tables, ityp: GoType): (bindings: map<string, GoType>) {
    if ityp in t.interfaceImpls then t.interfaceImpls[ityp] else map[]
  }

  /** What every registration keeps true: interface names denote pointers to
      interfaces, every per-interface binding also appears in the global
      type-URL table, and every bound type is assignable to its interface. */
  ghost predicate Consistent(t: Tables, rt: Runtime) {
    && (forall n :: n in t.interfaceNames ==> IsInterfacePointer(t.interfaceNames[n]))
    && BindingsRegistered(t)
    && (forall i, u :: i in t.interfaceImpls && u in t.interfaceImpls[i] ==> rt.assignableTo(t.interfaceImpls[i][u], i))
  }

  /** Every per-interface binding also appears in the global type-URL table. */
  ghost predicate BindingsRegistered(t: Tables) {
    forall i, u :: i in t.interfaceImpls && u in t.interfaceImpls[i] ==> u in t.typeURLMap
  }

  /** `url` is bound to `impl` under the interface `iface` points to, and the
      global tables agree with that binding. */
  ghost predicate Bound(t: Tables, rt: Runtime, iface: GoType, url: string, impl: GoType) {
    && iface.Ptr?
    && rt.assignableTo(impl, iface.elem)
    && url in ImplsOf(t, iface.elem) && ImplsOf(t, iface.elem)[url] == impl
    && url in t.typeURLMap && t.typeURLMap[url] == impl
    && impl in t.implInterfaces && t.implInterfaces[impl] == iface.elem
  }

  /** Whether the global table holds `url`, whichever interface it was
      registered under; where every binding is also in the global table, an
      unregistered URL is bound under no interface. */
  function TypeURLIsRegistered(t: Tables, url: string): (found: bool)
    ensures found <==> url in t.typeURLMap
    ensures !found && BindingsRegistered(t) ==> forall i :: url !in ImplsOf(t, i)
  {
    url in t.typeURLMap
  }

  /** A fresh zero value of the type registered under `url`. */
  function Resolve(t: Tables, rt: Runtime, url: string): (r: Outcome<Message>)
    ensures r == Err(UnresolvableTypeURL(url)) <==> !TypeURLIsRegistered(t, url)
    ensures r.Ok? ==> TypeURLIsRegistered(t, url) && r.value == ZeroMessage(t.typeURLMap[url])
    ensures r.Panic? ==> TypeURLIsRegistered(t, url) && !t.typeURLMap[url].Ptr?
    ensures TypeURLIsRegistered(t, url) ==>
      && (r.Panic? <==> !t.typeURLMap[url].Ptr?)
      && (r.Ok? <==> t.typeURLMap[url].Ptr? && rt.isProtoMessage(t.typeURLMap[url]))
  {
    if url !in t.typeURLMap then Err(UnresolvableTypeURL(url))
    else
      var typ := t.typeURLMap[url];
      if !typ.Ptr? then Panic(ElemOfNonPointer(typ))
      else if !rt.isProtoMessage(typ) then Err(CannotResolve(url))
      else Ok(ZeroMessage(typ))
  }

  /** Checks that a value of dynamic type `x` has a registered interface. */
  function EnsureRegistered(t: Tables, x: GoType): (r: Outcome<()>)
    ensures !r.Panic?
    ensures r.Ok? <==> x.Ptr? && x in t.implInterfaces
    ensures r == Err(NotAPointer(x)) <==> !x.Ptr?
  {
    if !x.Ptr? then Err(NotAPointer(x))
    else if x !in t.implInterfaces then Err(NoRegisteredInterface(x))
    else Ok(())
  }

  /** `registerImpl`: binds `url` to `impl` under the interface that `iface`
      points to. The conflict check looks only at that interface's table; the
      global tables are overwritten. */
  function RegisterImpl(t: Tables, rt: Runtime, iface: GoType, url: string, impl: GoType): (r: Registered)
    ensures r.panic.Some? ==> r.tables == t
    ensures r.panic.None? <==>
      && iface.Ptr?
      && rt.assignableTo(impl, iface.elem)
      && (url in ImplsOf(t, iface.elem) ==> ImplsOf(t, iface.elem)[url] == impl)
    ensures r.panic.None? ==>
      && Bound(r.tables, rt, iface, url, impl)
      && TypeURLIsRegistered(r.tables, url)
      && EnsureRegistered(r.tables, impl) == (if impl.Ptr? then Ok(()) else Err(NotAPointer(impl)))
      && (impl.Ptr? && rt.isProtoMessage(impl) ==> Resolve(r.tables, rt, url) == Ok(ZeroMessage(impl)))
    ensures r.panic.None? ==>
      && r.tables.interfaceNames == t.interfaceNames
      && (forall u :: u in t.typeURLMap ==> u in r.tables.typeURLMap)
      && (forall u :: u != url ==> (u in r.tables.typeURLMap <==> u in t.typeURLMap))
      && (forall u :: u != url && u in t.typeURLMap ==> r.tables.typeURLMap[u] == t.typeURLMap[u])
      && (forall i :: i != iface.elem ==> ImplsOf(r.tables, i) == ImplsOf(t, i))
    // the interface's own table gains only `url`, and only `impl`'s
    // interface changes
    ensures r.panic.None? ==>
      && ImplsOf(r.tables, iface.elem) == ImplsOf(t, iface.elem)[url := impl]
      && r.tables.implInterfaces == t.implInterfaces[impl := iface.elem]
    ensures Consistent(t, rt) ==> Consistent(r.tables, rt)
  {
    if !iface.Ptr? then Registered(t, Some(ElemOfNonPointer(iface)))
    else
      var ityp := iface.elem;
      var bindings := ImplsOf(t, ityp);
      if !rt.assignableTo(impl, ityp) then Registered(t, Some(NotImplemented(impl, ityp)))
      else if url in bindings && bindings[url] != impl then Registered(t, Some(TypeURLConflict(url, bindings[url], impl)))
      else
        Registered(
          Tables(t.interfaceNames,
                 t.interfaceImpls[ityp := bindings[url := impl]],
                 t.implInterfaces[impl := ityp],
                 t.typeURLMap[url := impl]),
          None)
  }

  /** The type URL `RegisterImplementations` derives for a message type. */
  function DerivedTypeURL(rt: Runtime, impl: GoType): (url: string)
    ensures |url| > 0 && url[0] == '/' && url[1..] == rt.messageName(impl)
  {
    "/" + rt.messageName(impl)
  }

  /** `RegisterImplementations`: `registerImpl` on each type in order, under
      its derived type URL, stopping at the first panic. */
  function RegisterImplementations(t: Tables, rt: Runtime, iface: GoType, impls: seq<GoType>): (r: Registered)
    ensures r.tables.interfaceNames == t.interfaceNames
    ensures forall u :: u in t.typeURLMap ==> u in r.tables.typeURLMap
    ensures forall u :: u in r.tables.typeURLMap && u !in t.typeURLMap ==> |u| > 0 && u[0] == '/'
    ensures Consistent(t, rt) ==> Consistent(r.tables, rt)
    decreases |impls|
  {
    if impls == [] then Registered(t, None)
    else
      var first := RegisterImpl(t, rt, iface, DerivedTypeURL(rt, impls[0]), impls[0]);
      if first.panic.Some? then first
      else RegisterImplementations(first.tables, rt, iface, impls[1..])
  }

  /** `RegisterInterface`: records the interface name, then registers the
      given implementations under it. */
  function RegisterInterface(t: Tables, rt: Runtime, protoName: string, iface: GoType, impls: seq<GoType>): (r: Registered)
    ensures !IsInterfacePointer(iface) ==> r.panic.Some? && r.tables == t
    ensures IsInterfacePointer(iface) ==>
      && r.tables.interfaceNames == t.interfaceNames[protoName := iface]
      && r == RegisterImplementations(t.(interfaceNames := t.interfaceNames[protoName := iface]), rt, iface, impls)
    ensures Consistent(t, rt) ==> Consistent(r.tables, rt)
  {
    if !iface.Ptr? then Registered(t, Some(ElemOfNonPointer(iface)))
    else if !IsInterface(iface.elem) then Registered(t, Some(NotAnInterface(iface)))
    else RegisterImplementations(t.(interfaceNames := t.interfaceNames[protoName := iface]), rt, iface, impls)
  }

  /** Binding a URL that the interface's table does not hold yet writes the
      binding into all four tables. */
  lemma RegisterImplFresh(t: Tables, rt: Runtime, iface: GoType, url: string, impl: GoType)
    requires iface.Ptr? && rt.assignableTo(impl, iface.elem) && url !in ImplsOf(t, iface.elem)
    ensures RegisterImpl(t, rt, iface, url, impl) ==
      Registered(Tables(t.interfaceNames,
                        t.interfaceImpls[iface.elem := ImplsOf(t, iface.elem)[url := impl]],
                        t.implInterfaces[impl := iface.elem],
                        t.typeURLMap[url := impl]), None)
  {
  }

  /** In a consistent registry a URL missing from the global table is bound
      under no interface. */
  lemma UnregisteredIsUnbound(t: Tables, rt: Runtime, ityp: GoType, url: string)
    requires Consistent(t, rt) && !TypeURLIsRegistered(t, url)
    ensures url !in ImplsOf(t, ityp)
  {
  }

  /** Registering again a binding that is already in place changes nothing. */
  lemma RegisterImplAgain(t: Tables, rt: Runtime, iface: GoType, url: string, impl: GoType)
    requires Bound(t, rt, iface, url, impl)
    ensures RegisterImpl(t, rt, iface, url, impl) == Registered(t, None)
  {
    var ityp := iface.elem;
    assert ityp in t.interfaceImpls;
    assert ImplsOf(t, ityp)[url := impl] == t.interfaceImpls[ityp];
    assert t.interfaceImpls[ityp := ImplsOf(t, ityp)[url := impl]] == t.interfaceImpls;
    assert t.implInterfaces[impl := ityp] == t.implInterfaces;
    assert t.typeURLMap[url := impl] == t.typeURLMap;
  }

  /** A successful registration under the same interface keeps every earlier
      binding of that interface in place. */
  lemma BoundSurvivesRegisterImpl(t: Tables, rt: Runtime, iface: GoType, url: string, impl: GoType, url': string, impl': GoType)
    requires Bound(t, rt, iface, url, impl)
    requires RegisterImpl(t, rt, iface, url', impl').panic.None?
    ensures Bound(RegisterImpl(t, rt, iface, url', impl').tables, rt, iface, url, impl)
  {
  }

  /** After `RegisterImplementations` succeeds, every listed type is bound
      under its derived URL. */
  lemma {:induction false} RegisterImplementationsBinds(t: Tables, rt: Runtime, iface: GoType, impls: seq<GoType>)
    requires RegisterImplementations(t, rt, iface, impls).panic.None?
    ensures forall k :: 0 <= k < |impls| ==>
      Bound(RegisterImplementations(t, rt, iface, impls).tables, rt, iface, DerivedTypeURL(rt, impls[k]), impls[k])
    decreases |impls|
  {
    if impls != [] {
      var first := RegisterImpl(t, rt, iface, DerivedTypeURL(rt, impls[0]), impls[0]);
      RegisterImplementationsBinds(first.tables, rt, iface, impls[1..]);
      BoundRegisterImplementations(first.tables, rt, iface, impls[1..], DerivedTypeURL(rt, impls[0]), impls[0]);
      forall k | 1 <= k < |impls|
        ensures Bound(RegisterImplementations(t, rt, iface, impls).tables, rt, iface, DerivedTypeURL(rt, impls[k]), impls[k])
      {
        assert impls[k] == impls[1..][k - 1];
      }
    }
  }

  /** A binding in place before `RegisterImplementations` on the same
      interface is still in place after it succeeds. */
  lemma {:induction false} BoundRegisterImplementations(t: Tables, rt: Runtime, iface: GoType, impls: seq<GoType>, url: string, impl: GoType)
    requires Bound(t, rt, iface, url, impl)
    requires RegisterImplementations(t, rt, iface, impls).panic.None?
    ensures Bound(RegisterImplementations(t, rt, iface, impls).tables, rt, iface, url, impl)
    decreases |impls|
  {
    if impls != [] {
      var first := RegisterImpl(t, rt, iface, DerivedTypeURL(rt, impls[0]), impls[0]);
      BoundSurvivesRegisterImpl(t, rt, iface, url, impl, DerivedTypeURL(rt, impls[0]), impls[0]);
      BoundRegisterImplementations(first.tables, rt, iface, impls[1..], url, impl);
    }
  }

  /** Registering the same list again once it went through is a no-op. */
  lemma {:induction false} RegisterImplementationsIdempotent(t: Tables, rt: Runtime, iface: GoType, impls: seq<GoType>)
    requires RegisterImplementations(t, rt, iface, impls).panic.None?
    ensures var t' := RegisterImplementations(t, rt, iface, impls).tables;
      RegisterImplementations(t', rt, iface, impls) == Registered(t', None)
  {
    var t' := RegisterImplementations(t, rt, iface, impls).tables;
    RegisterImplementationsBinds(t, rt, iface, impls);
    NoOpWhenAllBound(t', rt, iface, impls);
  }

  lemma {:induction false} NoOpWhenAllBound(t: Tables, rt: Runtime, iface: GoType, impls: seq<GoType>)
    requires forall k :: 0 <= k < |impls| ==> Bound(t, rt, iface, DerivedTypeURL(rt, impls[k]), impls[k])
    ensures RegisterImplementations(t, rt, iface, impls) == Registered(t, None)
    decreases |impls|
  {
    if impls != [] {
      RegisterImplAgain(t, rt, iface, DerivedTypeURL(rt, impls[0]), impls[0]);
      forall k | 0 <= k < |impls[1..]|
        ensures Bound(t, rt, iface, DerivedTypeURL(rt, impls[1..][k]), impls[1..][k])
      {
        assert impls[1..][k] == impls[k + 1];
      }
      NoOpWhenAllBound(t, rt, iface, impls[1..]);
    }
  }

  /** The uniqueness check is per interface: the same URL bound to two
      different types under two different interfaces is accepted, and the
      global type-URL table keeps the later one. */
  lemma CrossInterfaceOverwrite(t: Tables, rt: Runtime, iface1: GoType, iface2: GoType, url: string, impl1: GoType, impl2: GoType)
    requires RegisterImpl(t, rt, iface1, url, impl1).panic.None?
    requires iface2.Ptr? && iface1.elem != iface2.elem
    requires rt.assignableTo(impl2, iface2.elem) && url !in ImplsOf(t, iface2.elem)
    ensures var t1 := RegisterImpl(t, rt, iface1, url, impl1).tables;
      var r2 := RegisterImpl(t1, rt, iface2, url, impl2);
      && r2.panic.None?
      && r2.tables.typeURLMap[url] == impl2
      && ImplsOf(r2.tables, iface1.elem)[url] == impl1
      && ImplsOf(r2.tables, iface2.elem)[url] == impl2
  {
  }
}

=== FILE: encoding.dfy ===
/**
  The custom type-URL loop of `MakeCodec`: each entry of the custom message
  registry is registered against the `sdk.Msg` interface, after a check
  that its type URL is not yet in the global type-URL table. The module
  wiring that populates the registry beforehand is not part of this model;
  the loop starts from whatever registry it is given.
 */
module Encoding {
  import opened GoModel
  import opened Catalog
  import opened InterfaceRegistry

  /** The `sdk.Msg` interface type. */
  const SdkMsg: GoType := Named("types.Msg", true)

  /** The tables after registering every entry of `custom` against
      `sdk.Msg`, in any order, none of them conflicting. */
  function WithCustomMsgs(t: Tables, custom: map<string, GoType>): (r: Tables) {
    Tables(
      t.interfaceNames,
      if custom == map[] then t.interfaceImpls else t.interfaceImpls[SdkMsg := ImplsOf(t, SdkMsg) + custom],
      t.implInterfaces + MsgInterfaces(custom),
      t.typeURLMap + custom)
  }

  /** What registering the custom entries means for the queries: every
      custom URL resolves to its own type through the global table and
      through the `sdk.Msg` table, no other URL is added, and no other
      interface's table changes. */
  lemma WithCustomMsgsRegisters(t: Tables, custom: map<string, GoType>)
    ensures var r := WithCustomMsgs(t, custom);
      && r.interfaceNames == t.interfaceNames
      && (forall u :: TypeURLIsRegistered(r, u) <==> TypeURLIsRegistered(t, u) || u in custom)
      && (forall u :: u in custom ==>
            && u in r.typeURLMap && r.typeURLMap[u] == custom[u]
            && u in ImplsOf(r, SdkMsg) && ImplsOf(r, SdkMsg)[u] == custom[u])
      && (forall i :: i != SdkMsg ==> ImplsOf(r, i) == ImplsOf(t, i))
  {
  }

  /** The entries of `custom` whose type URLs are in `keys`. */
  function Restrict(custom: map<string, GoType>, keys: set<string>): (sub: map<string, GoType>) {
    map u | u in custom && u in keys :: custom[u]
  }

  /** The implementations-to-interface entries that registering `custom`
      adds: every registered type now belongs to `sdk.Msg`. */
  function MsgInterfaces(custom: map<string, GoType>): (added: map<GoType, GoType>) {
    map impl | impl in custom.Values :: SdkMsg
  }

  lemma AddedValue(m: map<string, GoType>, url: string, v: GoType)
    requires url !in m
    ensures MsgInterfaces(m[url := v]) == MsgInterfaces(m)[v := SdkMsg]
  {
    var m' := m[url := v];
    forall x | x in m'.Values
      ensures x in m.Values || x == v
    {
      var u :| u in m' && m'[u] == x;
      if u != url {
        assert u in m && m[u] == x;
      }
    }
    forall x | x in m.Values
      ensures x in m'.Values
    {
      var u :| u in m && m[u] == x;
      assert u != url && m'[u] == x;
    }
    assert url in m' && m'[url] == v;
    assert m'.Values == m.Values + {v};
  }

  /** The tables `registerImpl` writes when it binds a fresh `url` to `v`
      under `sdk.Msg` on top of the custom entries `m`. */
  function StepTables(t: Tables, m: map<string, GoType>, url: string, v: GoType): (r: Tables) {
    var before := WithCustomMsgs(t, m);
    Tables(before.interfaceNames,
           before.interfaceImpls[SdkMsg := ImplsOf(before, SdkMsg)[url := v]],
           before.implInterfaces[v := SdkMsg],
           before.typeURLMap[url := v])
  }

  lemma StepTablesAddsEntry(t: Tables, m: map<string, GoType>, url: string, v: GoType)
    requires url !in m
    ensures StepTables(t, m, url, v) == WithCustomMsgs(t, m[url := v])
  {
    StepImpls(t, m, url, v);
    StepImplInterfaces(t, m, url, v);
    StepTypeURLs(t, m, url, v);
  }

  lemma StepImplInterfaces(t: Tables, m: map<string, GoType>, url: string, v: GoType)
    requires url !in m
    ensures StepTables(t, m, url, v).implInterfaces == WithCustomMsgs(t, m[url := v]).implInterfaces
  {
    AddedValue(m, url, v);
    UpdateAfterMerge(t.implInterfaces, MsgInterfaces(m), v, SdkMsg);
  }

  lemma StepTypeURLs(t: Tables, m: map<string, GoType>, url: string, v: GoType)
    ensures StepTables(t, m, url, v).typeURLMap == WithCustomMsgs(t, m[url := v]).typeURLMap
  {
    UpdateAfterMerge(t.typeURLMap, m, url, v);
  }

  /** Updating a merged map is updating its right operand. */
  lemma UpdateAfterMerge<K, V>(a: map<K, V>, b: map<K, V>, k: K, v: V)
    ensures (a + b)[k := v] == a + b[k := v]
  {
  }

  lemma StepImpls(t: Tables, m: map<string, GoType>, url: string, v: GoType)
    requires url !in m
    ensures StepTables(t, m, url, v).interfaceImpls == WithCustomMsgs(t, m[url := v]).interfaceImpls
  {
    var x := ImplsOf(t, SdkMsg);
    var m' := m[url := v];
    assert m' != map[] by { assert url in m'; }
    UpdateAfterMerge(x, m, url, v);
    if m == map[] {
      assert ImplsOf(WithCustomMsgs(t, m), SdkMsg) == x;
      assert x[url := v] == x + m';
    } else {
      assert ImplsOf(WithCustomMsgs(t, m), SdkMsg) == x + m;
      assert t.interfaceImpls[SdkMsg := x + m][SdkMsg := x + m'] == t.interfaceImpls[SdkMsg := x + m'];
    }
  }

  /** One loop step: registering a fresh URL against `sdk.Msg` on top of the
      entries `m` already registered gives the tables for `m` plus that one
      entry, without a panic. */
  lemma RegisterCustomStep(t: Tables, rt: Runtime, m: map<string, GoType>, url: string, v: GoType)
    requires url !in m && url !in ImplsOf(WithCustomMsgs(t, m), SdkMsg)
    requires rt.assignableTo(v, SdkMsg)
    ensures RegisterImpl(WithCustomMsgs(t, m), rt, Ptr(SdkMsg), url, v) == Registered(WithCustomMsgs(t, m[url := v]), None)
  {
    RegisterImplFresh(WithCustomMsgs(t, m), rt, Ptr(SdkMsg), url, v);
    StepTablesAddsEntry(t, m, url, v);
  }

  /** The loop step of `MakeCodec` stated on the registry's tables: with the
      entries of `done` registered, registering one more fresh entry yields
      the tables for `done` plus that entry. */
  lemma RegisterCustomLoopStep(t: Tables, rt: Runtime, custom: map<string, GoType>, done: set<string>, url: string)
    requires Consistent(WithCustomMsgs(t, Restrict(custom, done)), rt)
    requires !TypeURLIsRegistered(WithCustomMsgs(t, Restrict(custom, done)), url)
    requires url in custom && url !in done && rt.assignableTo(custom[url], SdkMsg)
    ensures RegisterImpl(WithCustomMsgs(t, Restrict(custom, done)), rt, Ptr(SdkMsg), url, custom[url])
         == Registered(WithCustomMsgs(t, Restrict(custom, done + {url})), None)
  {
    var m := Restrict(custom, done);
    assert Restrict(custom, done + {url}) == m[url := custom[url]];
    UnregisteredIsUnbound(WithCustomMsgs(t, m), rt, SdkMsg, url);
    RegisterCustomStep(t, rt, m, url, custom[url]);
  }

  /** While the loop runs, a URL is registered exactly when it was before the
      loop or it is one of the custom entries already handled. */
  lemma RegisteredDuringLoop(t: Tables, custom: map<string, GoType>, done: set<string>, url: string)
    ensures TypeURLIsRegistered(WithCustomMsgs(t, Restrict(custom, done)), url)
        <==> TypeURLIsRegistered(t, url) || (url in custom && url in done)
  {
  }

  /** Before the loop no custom entry is registered yet. */
  lemma NoCustomMsgsYet(t: Tables, custom: map<string, GoType>)
    ensures WithCustomMsgs(t, Restrict(custom, {})) == t
  {
    assert Restrict(custom, {}) == map[];
    assert MsgInterfaces(map[]) == map[];
    assert t.implInterfaces + map[] == t.implInterfaces;
    assert t.typeURLMap + map[] == t.typeURLMap;
  }

  /** After the loop every custom entry is registered. */
  lemma AllCustomMsgsDone(t: Tables, custom: map<string, GoType>, done: set<string>)
    requires done == custom.Keys
    ensures WithCustomMsgs(t, Restrict(custom, done)) == WithCustomMsgs(t, custom)
  {
    assert Restrict(custom, done) == custom;
  }

  /** The body of `MakeCodec`'s loop for an entry whose type URL is not yet
      registered: registers it against `sdk.Msg` without a panic. */
  method RegisterCustomMsg(registry: ProbeInterfaceRegistry, ghost t: Tables, custom: map<string, GoType>, ghost done: set<string>, typeURL: string)
    returns (panic: Option<PanicReason>)
    requires registry.Valid() && registry.State() == WithCustomMsgs(t, Restrict(custom, done))
    requires typeURL in custom && typeURL !in done && !TypeURLIsRegistered(registry.State(), typeURL)
    requires registry.rt.assignableTo(custom[typeURL], SdkMsg)
    modifies registry
    ensures panic.None?
    ensures registry.Valid() && registry.State() == WithCustomMsgs(t, Restrict(custom, done + {typeURL}))
  {
    RegisterCustomLoopStep(t, registry.rt, custom, done, typeURL);
    panic := registry.RegisterCustomTypeURL(Ptr(SdkMsg), typeURL, custom[typeURL]);
  }

  /** `MakeCodec`'s loop over the custom message registry. It fails, and
      yields no codec, exactly when one of the custom type URLs is already
      registered under any interface; otherwise every entry ends up bound
      against `sdk.Msg`, and no registration panics. */
  method MakeCodec(registry: ProbeInterfaceRegistry, customMsgTypeRegistry: map<string, GoType>)
    returns (codec: ProbeInterfaceRegistry?, err: Option<Error>)
    requires registry.Valid()
    requires forall u :: u in customMsgTypeRegistry ==> registry.rt.assignableTo(customMsgTypeRegistry[u], SdkMsg)
    modifies registry
    ensures registry.Valid()
    ensures err.None? <==> forall u :: u in customMsgTypeRegistry ==> !TypeURLIsRegistered(old(registry.State()), u)
    ensures err.None? ==> codec == registry && registry.State() == WithCustomMsgs(old(registry.State()), customMsgTypeRegistry)
    ensures err.None? ==> forall u :: u in customMsgTypeRegistry ==>
      && TypeURLIsRegistered(registry.State(), u)
      && u in ImplsOf(registry.State(), SdkMsg) && ImplsOf(registry.State(), SdkMsg)[u] == customMsgTypeRegistry[u]
    ensures err.Some? ==>
      && codec == null && err.value.DuplicateCustomTypeURL?
      && err.value.url in customMsgTypeRegistry && TypeURLIsRegistered(old(registry.State()), err.value.url)
  {
    var custom := customMsgTypeRegistry;
    var rest := custom.Keys;
    ghost var done: set<string> := {};
    NoCustomMsgsYet(registry.State(), custom);
    while rest != {}
      invariant rest !! done && rest + done == custom.Keys
      invariant registry.Valid()
      invariant forall u :: u in done ==> !TypeURLIsRegistered(old(registry.State()), u)
      invariant registry.State() == WithCustomMsgs(old(registry.State()), Restrict(custom, done))
      decreases rest
    {
      var typeURL :| typeURL in rest;
      RegisteredDuringLoop(old(registry.State()), custom, done, typeURL);
      if TypeURLIsRegistered(registry.State(), typeURL) {
        return null, Some(DuplicateCustomTypeURL(typeURL));
      }
      var panic := RegisterCustomMsg(registry, old(registry.State()), custom, done, typeURL);
      assert panic.None?;
      done := done + {typeURL};
      rest := rest - {typeURL};
    }
    AllCustomMsgsDone(old(registry.State()), custom, done);
    WithCustomMsgsRegisters(old(registry.State()), custom);
    return registry, None;
  }
}

=== FILE: go_model.dfy ===
/**
  The parts of Go's reflection and of the protobuf runtime that the interface
  registry relies on, stated abstractly: Go types are opaque identifiers,
  assignability, message names, decoding and re-packing are functions given
  by a `Runtime` value, and a decoded message is a value that may hold
  further `Any` envelopes.
 */
module GoModel {

  datatype Option<T> = None | Some(value: T)

  datatype Result<T, E> = Success(value: T) | Failure(error: E)

  type Byte = b: int | 0 <= b < 256

  type Bytes = seq<Byte>

  /** A Go type as reflection sees it: a named type (an interface or a
      concrete type) or a pointer to another type. */
  datatype GoType = Named(name: string, isInterface: bool) | Ptr(elem: GoType)

  predicate IsInterface(t: GoType) {
    t.Named? && t.isInterface
  }

  /** What `reflect.TypeOf(iface)` must be for `RegisterInterface`: a pointer
      whose element type has kind Interface. */
  predicate IsInterfacePointer(t: GoType) {
    t.Ptr? && IsInterface(t.elem)
  }

  /** The decoded contents of a protobuf message: its plain fields, kept as
      opaque bytes, and its `Any`-typed fields. */
  datatype Body = Body(plain: Bytes, anys: seq<AnyField>)

  /** A value of a concrete message type. */
  datatype Message = Message(typ: GoType, body: Body)

  /** An `Any`-typed field of a message (nil when `any` is None) together with
      the interface type its `UnpackInterfaces` unpacks it against. */
  datatype AnyField = AnyField(any: Option<AnyData>, iface: GoType)

  /** The contents of an `Any` envelope: type URL, payload and the cached
      decoded value. */
  datatype AnyData = AnyData(typeUrl: string, value: Bytes, cachedValue: Option<Message>)

  /** The zero value of a message type, as `reflect.New` creates it. */
  function ZeroMessage(typ: GoType): (m: Message) {
    Message(typ, Body([], []))
  }

  /** The fixed behaviour of reflection and of the protobuf library. */
  datatype Runtime = Runtime(
    assignableTo: (GoType, GoType) -> bool,                // reflect.Type.AssignableTo
    messageName: GoType -> string,                         // proto.MessageName
    isProtoMessage: GoType -> bool,                        // the type satisfies proto.Message
    unmarshal: (GoType, Bytes) -> Result<Body, string>,    // proto.Unmarshal into a fresh value
    unpacksNested: GoType -> bool,                         // the type implements UnpackInterfacesMessage
    newAnyWithValue: Message -> Result<AnyData, string>)   // codectypes.NewAnyWithValue

  /** The recoverable errors returned by the registry and by `MakeCodec`. */
  datatype Error =
    | NotAPointer(t: GoType)
    | NoRegisteredInterface(t: GoType)
    | UnresolvableTypeURL(url: string)
    | CannotResolve(url: string)
    | NoImplementations(iface: GoType)
    | NoConcreteType(url: string, iface: GoType)
    | CannotUnmarshal(t: GoType)
    | DecodeFailed(reason: string)
    | PackFailed(reason: string)
    | DepthExceeded
    | DuplicateCustomTypeURL(url: string)

  /** Why a call panics instead of returning. */
  datatype PanicReason =
    | ElemOfNonPointer(t: GoType)
    | NotAnInterface(t: GoType)
    | NotImplemented(impl: GoType, iface: GoType)
    | TypeURLConflict(url: string, registered: GoType, impl: GoType)
    | SetNotAssignable(value: GoType, slot: GoType)

  /** A call that returns a value, returns an error, or panics. */
  datatype Outcome<T> = Ok(value: T) | Err(error: Error) | Panic(reason: PanicReason)
}

=== FILE: interface_registry.dfy ===
/**
  `ProbeInterfaceRegistry` as an object whose four map fields the
  registration methods update in place, the `Any` envelope that `UnpackAny`
  overwrites in place, and the variable `UnpackAny` stores into.
 */
module InterfaceRegistry {
  import opened GoModel
  import opened Catalog
  import opened Unpacking

  /** A `*codectypes.Any`. */
  class Any {
    var typeUrl: string
    var value: Bytes
    var cachedValue: Option<Message>

    function Data(): (d: AnyData)
      reads this
    {
      AnyData(typeUrl, value, cachedValue)
    }

    constructor (d: AnyData)
      ensures Data() == d
    {
      typeUrl, value, cachedValue := d.typeUrl, d.value, d.cachedValue;
    }
  }

  /** A variable of static type `typ` that a pointer passed to `UnpackAny`
      points to. */
  class Slot {
    const typ: GoType
    var value: Option<Message>

    constructor (typ: GoType)
      ensures this.typ == typ && value.None?
    {
      this.typ := typ;
      value := None;
    }
  }

  /** The `iface` argument of `UnpackAny`. */
  datatype Target = NonPointer(t: GoType) | PointerTo(slot: Slot)

  /** The static type the target stands for. */
  function TypeOfTarget(target: Target): (tt: TargetType) {
    match target
    case NonPointer(t) => TargetType.NonPointer(t)
    case PointerTo(slot) => TargetType.PointerTo(slot.typ)
  }

  /** The objects `UnpackAny` may write through the target. */
  function Slots(target: Target): (objs: set<object>) {
    if target.PointerTo? then {target.slot} else {}
  }

  /** The contents of a possibly nil envelope; nil is `None`. */
  function AnyContents(any: Any?): (contents: Option<AnyData>)
    reads any
  {
    if any == null then None else Some(any.Data())
  }

  class ProbeInterfaceRegistry {
    /** The reflection and protobuf behaviour the registry works against. */
    const rt: Runtime

    var interfaceNames: map<string, GoType>
    var interfaceImpls: map<GoType, map<string, GoType>>
    var implInterfaces: map<GoType, GoType>
    var typeURLMap: map<string, GoType>

    /** The four maps as one `Tables` value. */
    function State(): (tables: Tables)
      reads this
    {
      Tables(interfaceNames, interfaceImpls, implInterfaces, typeURLMap)
    }

    ghost predicate Valid()
      reads this
    {
      Consistent(State(), rt)
    }

    /** `NewInterfaceRegistry`. */
    constructor (rt: Runtime)
      ensures Valid() && this.rt == rt
      ensures interfaceNames == map[] && interfaceImpls == map[]
      ensures implInterfaces == map[] && typeURLMap == map[]
    {
      this.rt := rt;
      interfaceNames := map[];
      interfaceImpls := map[];
      implInterfaces := map[];
      typeURLMap := map[];
    }

    method RegisterInterface(protoName: string, iface: GoType, impls: seq<GoType>) returns (panic: Option<PanicReason>)
      requires Valid()
      modifies this
      ensures Valid()
      ensures Registered(State(), panic) == Catalog.RegisterInterface(old(State()), rt, protoName, iface, impls)
    {
      if !iface.Ptr? {
        return Some(ElemOfNonPointer(iface));
      }
      if !IsInterface(iface.elem) {
        return Some(NotAnInterface(iface));
      }
      interfaceNames := interfaceNames[protoName := iface];
      panic := RegisterImplementations(iface, impls);
    }

    method RegisterImplementations(iface: GoType, impls: seq<GoType>) returns (panic: Option<PanicReason>)
      requires Valid()
      modifies this
      ensures Valid()
      ensures Registered(State(), panic) == Catalog.RegisterImplementations(old(State()), rt, iface, impls)
    {
      var i := 0;
      while i < |impls|
        invariant 0 <= i <= |impls|
        invariant Valid()
        invariant Catalog.RegisterImplementations(old(State()), rt, iface, impls)
               == Catalog.RegisterImplementations(State(), rt, iface, impls[i..])
      {
        assert impls[i..][1..] == impls[i + 1..];
        var typeURL := "/" + rt.messageName(impls[i]);
        panic := RegisterImpl(iface, typeURL, impls[i]);
        if panic.Some? {
          return;
        }
        i := i + 1;
      }
      panic := None;
    }

    method RegisterCustomTypeURL(iface: GoType, typeURL: string, impl: GoType) returns (panic: Option<PanicReason>)
      requires Valid()
      modifies this
      ensures Valid()
      ensures Registered(State(), panic) == Catalog.RegisterImpl(old(State()), rt, iface, typeURL, impl)
    {
      panic := RegisterImpl(iface, typeURL, impl);
    }

    /** `registerImpl`: checks first, then writes all four tables. */
    method RegisterImpl(iface: GoType, typeURL: string, impl: GoType) returns (panic: Option<PanicReason>)
      requires Valid()
      modifies this
      ensures Valid()
      ensures Registered(State(), panic) == Catalog.RegisterImpl(old(State()), rt, iface, typeURL, impl)
    {
      ghost var expected := Catalog.RegisterImpl(State(), rt, iface, typeURL, impl);
      if !iface.Ptr? {
        return Some(ElemOfNonPointer(iface));
      }
      var ityp := iface.elem;
      var bindings := if ityp in interfaceImpls then interfaceImpls[ityp] else map[];
      if !rt.assignableTo(impl, ityp) {
        return Some(NotImplemented(impl, ityp));
      }
      if typeURL in bindings && bindings[typeURL] != impl {
        return Some(TypeURLConflict(typeURL, bindings[typeURL], impl));
      }
      bindings := bindings[typeURL := impl];
      typeURLMap := typeURLMap[typeURL := impl];
      implInterfaces := implInterfaces[impl := ityp];
      interfaceImpls := interfaceImpls[ityp := bindings];
      panic := None;
      assert State() == expected.tables;
    }

    /** Every registered interface name, each once, in no particular order. */
    method ListAllInterfaces() returns (keys: seq<string>)
      ensures forall i, j :: 0 <= i < j < |keys| ==> keys[i] != keys[j]
      ensures forall n :: n in keys <==> n in interfaceNames
    {
      keys := [];
      var rest := interfaceNames.Keys;
      while rest != {}
        invariant forall i, j :: 0 <= i < j < |keys| ==> keys[i] != keys[j]
        invariant forall n :: n in keys ==> n in interfaceNames && n !in rest
        invariant forall n :: n in interfaceNames ==> n in keys || n in rest
        invariant rest <= interfaceNames.Keys
        decreases rest
      {
        var key :| key in rest;
        keys := keys + [key];
        rest := rest - {key};
      }
    }

    /** The type URLs bound under the interface registered as `ifaceName`,
        each once, in no particular order; none for an unknown name. */
    method ListImplementations(ifaceName: string) returns (keys: seq<string>)
      requires Valid()
      ensures forall i, j :: 0 <= i < j < |keys| ==> keys[i] != keys[j]
      ensures ifaceName !in interfaceNames ==> keys == []
      ensures ifaceName in interfaceNames ==>
        forall u :: u in keys <==> u in ImplsOf(State(), interfaceNames[ifaceName].elem)
    {
      if ifaceName !in interfaceNames {
        return [];
      }
      var typ := interfaceNames[ifaceName];
      if typ.elem !in interfaceImpls {
        return [];
      }
      var impls := interfaceImpls[typ.elem];
      keys := [];
      var rest := impls.Keys;
      while rest != {}
        invariant forall i, j :: 0 <= i < j < |keys| ==> keys[i] != keys[j]
        invariant forall u :: u in keys ==> u in impls && u !in rest
        invariant forall u :: u in impls ==> u in keys || u in rest
        invariant rest <= impls.Keys
        decreases rest
      {
        var key :| key in rest;
        keys := keys + [key];
        rest := rest - {key};
      }
    }

    /** `UnpackAny`: stores the decoded value into the target variable and
        overwrites the envelope, as `Unpack` says; `depth` bounds the nesting
        of envelopes inside decoded messages. */
    method UnpackAny(any: Any?, target: Target, depth: nat) returns (status: Outcome<()>)
      modifies any, Slots(target)
      ensures status == Unpack(State(), rt, old(AnyContents(any)), TypeOfTarget(target), depth).status
      ensures any != null ==> Some(any.Data()) == Rewrite(old(AnyContents(any)), Unpack(State(), rt, old(AnyContents(any)), TypeOfTarget(target), depth))
      ensures target.PointerTo? ==>
        var bound := Unpack(State(), rt, old(AnyContents(any)), TypeOfTarget(target), depth).bound;
        target.slot.value == if bound.Some? then bound else old(target.slot.value)
    {
      if any == null {
        return Ok(());
      }
      if any.typeUrl == "" {
        return Ok(());
      }
      if target.NonPointer? {
        return Err(NotAPointer(target.t));
      }
      var slot := target.slot;
      var cached := any.cachedValue;
      if cached.Some? && rt.assignableTo(cached.value.typ, slot.typ) {
        slot.value := cached;
        return Ok(());
      }
      if slot.typ !in interfaceImpls {
        return Err(NoImplementations(slot.typ));
      }
      var bindings := interfaceImpls[slot.typ];
      if any.typeUrl !in bindings {
        return Err(NoConcreteType(any.typeUrl, slot.typ));
      }
      var typ := bindings[any.typeUrl];
      if !typ.Ptr? {
        return Panic(ElemOfNonPointer(typ));
      }
      if !rt.isProtoMessage(typ) {
        return Err(CannotUnmarshal(typ));
      }
      var decoded := rt.unmarshal(typ, any.value);
      if decoded.Failure? {
        return Err(DecodeFailed(decoded.error));
      }
      var nested := UnpackInterfaces(State(), rt, Message(typ, decoded.value), depth);
      if !nested.status.Ok? {
        return nested.status;
      }
      var msg := nested.msg;
      if !rt.assignableTo(msg.typ, slot.typ) {
        return Panic(SetNotAssignable(msg.typ, slot.typ));
      }
      slot.value := Some(msg);
      var newAny := rt.newAnyWithValue(msg);
      if newAny.Failure? {
        return Err(PackFailed(newAny.error));
      }
      var typeURL := if newAny.value.typeUrl == "/" then any.typeUrl else newAny.value.typeUrl;
      any.typeUrl, any.value, any.cachedValue := newAny.value.typeUrl, newAny.value.value, newAny.value.cachedValue;
      any.typeUrl := typeURL;
      status := Ok(());
    }
  }
}

=== FILE: pagination.dfy ===
/**
  `MakeNextKey`, the pagination cursor: the position after the current page,
  as a big-endian unsigned integer with its leading zero bytes cut off, or
  nil when there is no further page. Go's `uint64` addition wraps around, and
  `bytes.TrimLeft` returns nil, not an empty slice, when it cuts every byte;
  both are written out here. A nil slice is `None`.
 */
module Pagination {
  import opened GoModel

  const TWO_64: int := 0x1_0000_0000_0000_0000

  type Uint64 = x: int | 0 <= x < TWO_64

  /** Go's `a + b` on `uint64`. */
  function AddUint64(a: Uint64, b: Uint64): (r: Uint64)
    ensures a + b < TWO_64 ==> r == a + b
    ensures a + b >= TWO_64 ==> r == a + b - TWO_64
  {
    (a + b) % TWO_64
  }

  function Pow256(n: nat): (r: nat)
    ensures r >= 1
  {
    if n == 0 then 1 else 256 * Pow256(n - 1)
  }

  /** The `n`-byte big-endian encoding of `x`, most significant byte first
      (`binary.BigEndian.PutUint64` when `n` is 8). */
  function ToBigEndian(x: nat, n: nat): (s: Bytes)
    ensures |s| == n
  {
    if n == 0 then [] else ToBigEndian(x / 256, n - 1) + [x % 256]
  }

  /** The unsigned integer a big-endian byte string denotes. */
  function FromBigEndian(s: Bytes): (x: nat) {
    if s == [] then 0 else FromBigEndian(s[..|s| - 1]) * 256 + s[|s| - 1]
  }

  /** `bytes.TrimLeft(s, "\x00")`: the suffix of `s` after its leading zero
      bytes, or nil when nothing is left. */
  function TrimLeftZeros(s: Bytes): (r: Option<Bytes>)
    ensures r.None? <==> forall i :: 0 <= i < |s| ==> s[i] == 0
    ensures r.Some? ==>
      && r.value != [] && r.value[0] != 0
      && |r.value| <= |s| && r.value == s[|s| - |r.value|..]
  {
    if s == [] then None
    else if s[0] == 0 then
      var r := TrimLeftZeros(s[1..]);
      assert r.Some? ==> s[1..][|s| - 1 - |r.value|..] == s[|s| - |r.value|..];
      r
    else Some(s)
  }

  /** `MakeNextKey(offset, limit, total)`; `None` is the nil slice. */
  function MakeNextKey(offset: Uint64, limit: Uint64, total: Uint64): (key: Option<Bytes>)
    ensures AddUint64(offset, limit) >= total ==> key.None?
    ensures key.Some? ==> 1 <= |key.value| <= 8 && key.value[0] != 0
  {
    var next := AddUint64(offset, limit);
    if next >= total then None
    else TrimLeftZeros(ToBigEndian(next, 8))
  }

  /** Every big-endian string of `n` bytes denotes a value below 256^n. */
  lemma {:induction false} FromBigEndianBound(s: Bytes)
    ensures FromBigEndian(s) < Pow256(|s|)
  {
    if s != [] {
      FromBigEndianBound(s[..|s| - 1]);
    }
  }

  /** Decoding undoes encoding for every value that fits in `n` bytes. */
  lemma {:induction false} BigEndianRoundTrip(x: nat, n: nat)
    requires x < Pow256(n)
    ensures FromBigEndian(ToBigEndian(x, n)) == x
  {
    if n > 0 {
      var init := ToBigEndian(x / 256, n - 1);
      QuotientFits(x, Pow256(n - 1));
      BigEndianRoundTrip(x / 256, n - 1);
      AppendByte(init, x % 256);
      Recompose(x);
    }
  }

  lemma QuotientFits(x: nat, p: nat)
    requires x < 256 * p
    ensures x / 256 < p
  {
  }

  /** Appending a byte shifts the value one byte up and adds the byte. */
  lemma AppendByte(s: Bytes, b: Byte)
    ensures FromBigEndian(s + [b]) == FromBigEndian(s) * 256 + b
  {
    assert (s + [b])[..|s|] == s;
  }

  lemma Recompose(x: nat)
    ensures (x / 256) * 256 + x % 256 == x
  {
  }

  /** Encoding undoes decoding: the bytes of a string are recovered from the
      value it denotes. */
  lemma {:induction false} BigEndianRoundTripBytes(s: Bytes)
    ensures ToBigEndian(FromBigEndian(s), |s|) == s
  {
    if s != [] {
      var init := s[..|s| - 1];
      BigEndianRoundTripBytes(init);
      assert s == init + [s[|s| - 1]];
    }
  }

  /** A leading zero byte does not change the value. */
  lemma {:induction false} LeadingZeroIgnored(s: Bytes)
    ensures FromBigEndian([0] + s) == FromBigEndian(s)
  {
    if s != [] {
      assert ([0] + s)[..|s|] == [0] + s[..|s| - 1];
      LeadingZeroIgnored(s[..|s| - 1]);
    }
  }

  /** Trimming the leading zero bytes does not change the value denoted. */
  lemma {:induction false} TrimPreservesValue(s: Bytes)
    requires TrimLeftZeros(s).Some?
    ensures FromBigEndian(TrimLeftZeros(s).value) == FromBigEndian(s)
  {
    if s[0] == 0 {
      assert s == [0] + s[1..];
      LeadingZeroIgnored(s[1..]);
      TrimPreservesValue(s[1..]);
    }
  }

  /** A string whose first byte is not zero denotes at least 256^(n-1). */
  lemma {:induction false} LeadingByteLowerBound(s: Bytes)
    requires s != [] && s[0] != 0
    ensures FromBigEndian(s) >= Pow256(|s| - 1)
  {
    if |s| > 1 {
      LeadingByteLowerBound(s[..|s| - 1]);
    }
  }

  /** A string of zero bytes denotes zero. */
  lemma {:induction false} AllZerosDenoteZero(s: Bytes)
    requires forall i :: 0 <= i < |s| ==> s[i] == 0
    ensures FromBigEndian(s) == 0
  {
    if s != [] {
      AllZerosDenoteZero(s[..|s| - 1]);
    }
  }

  /** What `MakeNextKey` returns: nil exactly when there is no next page or
      the next position is zero; otherwise one to eight bytes, the first of
      them not zero, that read back as the wrapped sum `offset + limit`, and
      no shorter string of bytes reads back as that sum. */
  lemma MakeNextKeySpec(offset: Uint64, limit: Uint64, total: Uint64)
    ensures var next := AddUint64(offset, limit);
      var key := MakeNextKey(offset, limit, total);
      && (key.None? <==> next >= total || next == 0)
      && (key.Some? ==>
            && 1 <= |key.value| <= 8 && key.value[0] != 0
            && FromBigEndian(key.value) == next
            && forall s: Bytes :: |s| < |key.value| ==> FromBigEndian(s) != next)
  {
    var next := AddUint64(offset, limit);
    if next < total {
      var b := ToBigEndian(next, 8);
      PutUint64RoundTrip(next);
      var r := TrimLeftZeros(b);
      if r.None? {
        AllZerosDenoteZero(b);
      } else {
        var k := r.value;
        TrimPreservesValue(b);
        LeadingByteLowerBound(k);
        forall s: Bytes | |s| < |k|
          ensures FromBigEndian(s) != next
        {
          ShorterIsSmaller(k, s);
        }
      }
    }
  }

  /** `PutUint64` followed by a big-endian read gives the value back. */
  lemma PutUint64RoundTrip(x: Uint64)
    ensures FromBigEndian(ToBigEndian(x, 8)) == x
  {
    assert Pow256(8) == TWO_64;
    BigEndianRoundTrip(x, 8);
  }

  /** A byte string shorter than one with a non-zero first byte denotes a
      smaller value. */
  lemma ShorterIsSmaller(k: Bytes, s: Bytes)
    requires k != [] && k[0] != 0 && |s| < |k|
    ensures FromBigEndian(s) < FromBigEndian(k)
  {
    FromBigEndianBound(s);
    LeadingByteLowerBound(k);
    Pow256Monotone(|s|, |k| - 1);
  }

  lemma {:induction false} Pow256Monotone(m: nat, n: nat)
    requires m <= n
    ensures Pow256(m) <= Pow256(n)
  {
    if m < n {
      Pow256Monotone(m, n - 1);
    }
  }

  /** The next page starts right after a 10-row page at offset 0. */
  lemma FirstPageKey()
    ensures MakeNextKey(0, 10, 35) == Some([10])
  {
    var b := ToBigEndian(10, 8);
    assert b == [0, 0, 0, 0, 0, 0, 0, 10];
  }

  /** A page that reaches the total has no next key. */
  lemma LastPageKeys()
    ensures MakeNextKey(30, 10, 35) == None
    ensures MakeNextKey(0, 35, 35) == None
  {
  }

  /** The sum wraps around: a page that would end beyond 2^64 yields a key
      that points back to the start. */
  lemma WrappedKey()
    ensures MakeNextKey(TWO_64 - 1, 2, 35) == Some([1])
  {
    var b := ToBigEndian(1, 8);
    assert b == [0, 0, 0, 0, 0, 0, 0, 1];
  }
}

=== FILE: unpacking.dfy ===
/**
  What `UnpackAny` does to an envelope and a target, as a function of the
  registry's tables. Nested envelopes are unpacked through the message's own
  `UnpackInterfaces`; the `fuel` parameter bounds that nesting depth.
 */
module Unpacking {
  import opened GoModel
  import opened Catalog

  /** The argument `iface` of `UnpackAny`: a pointer to a variable of type
      `elemType`, or a value that is not a pointer. */
  datatype TargetType = NonPointer(t: GoType) | PointerTo(elemType: GoType)

  /** The result of `UnpackAny`, the value it stored in the target variable
      (None: the target was not written), and the envelope contents it wrote
      back (None: the envelope was not written). */
  datatype Unpacked = Unpacked(status: Outcome<()>, bound: Option<Message>, rewritten: Option<AnyData>)

  /** The status of a nested unpack and the message with its `Any` fields as
      they stand afterwards. */
  datatype Nested = Nested(status: Outcome<()>, msg: Message)

  datatype NestedFields = NestedFields(status: Outcome<()>, anys: seq<AnyField>)

  /** The envelope contents after an unpack that produced `u`. */
  function Rewrite(any: Option<AnyData>, u: Unpacked): (after: Option<AnyData>) {
    if u.rewritten.Some? then u.rewritten else any
  }

  /** The type URL the envelope keeps after a successful decode: the
      re-derived one, unless that one is the bare placeholder "/". */
  function KeptTypeURL(original: string, rederived: string): (url: string)
    ensures url == rederived || (rederived == "/" && url == original)
    ensures url == "/" ==> original == "/"
  {
    if rederived == "/" then original else rederived
  }

  /** No early exit applies: the envelope is present, names a type and the
      target is a pointer. */
  predicate Unpackable(any: Option<AnyData>, target: TargetType) {
    any.Some? && any.value.typeUrl != "" && target.PointerTo?
  }

  /** The cached value can be stored into the target as it is. */
  predicate CacheHit(rt: Runtime, any: Option<AnyData>, target: TargetType) {
    Unpackable(any, target) && any.value.cachedValue.Some? &&
    rt.assignableTo(any.value.cachedValue.value.typ, target.elemType)
  }

  /** The envelope's type URL is bound under the target's interface. */
  predicate Known(t: Tables, any: Option<AnyData>, target: TargetType)
    requires Unpackable(any, target)
  {
    any.value.typeUrl in ImplsOf(t, target.elemType)
  }

  /** The concrete type bound to the envelope's URL under the target's interface. */
  function BoundType(t: Tables, any: Option<AnyData>, target: TargetType): (typ: GoType)
    requires Unpackable(any, target) && Known(t, any, target)
  {
    ImplsOf(t, target.elemType)[any.value.typeUrl]
  }

  /** The payload is decoded: no early exit and no cache hit applies, and the
      URL is bound to a pointer type that is a protobuf message. */
  predicate Decodes(t: Tables, rt: Runtime, any: Option<AnyData>, target: TargetType) {
    && Unpackable(any, target) && !CacheHit(rt, any, target) && Known(t, any, target)
    && BoundType(t, any, target).Ptr? && rt.isProtoMessage(BoundType(t, any, target))
  }

  /** `proto.Unmarshal` of the payload into a fresh value of the bound type. */
  function Payload(t: Tables, rt: Runtime, any: Option<AnyData>, target: TargetType): (decoded: Result<Body, string>)
    requires Decodes(t, rt, any, target)
  {
    rt.unmarshal(BoundType(t, any, target), any.value.value)
  }

  function Unpack(t: Tables, rt: Runtime, any: Option<AnyData>, target: TargetType, fuel: nat): (u: Unpacked)
    // a nil envelope or an empty type URL: success, nothing touched
    ensures (any.None? || any.value.typeUrl == "") ==> u == Unpacked(Ok(()), None, None)
    // a target that is not a pointer is an error
    ensures any.Some? && any.value.typeUrl != "" && target.NonPointer? ==> u == Unpacked(Err(NotAPointer(target.t)), None, None)
    // an assignable cached value is stored without decoding; the envelope stays
    ensures CacheHit(rt, any, target) ==> u == Unpacked(Ok(()), any.value.cachedValue, None)
    // a missing interface table, or a URL missing from it, is an error and touches nothing
    ensures Unpackable(any, target) && !CacheHit(rt, any, target) && target.elemType !in t.interfaceImpls ==>
      u == Unpacked(Err(NoImplementations(target.elemType)), None, None)
    ensures Unpackable(any, target) && !CacheHit(rt, any, target) && !Known(t, any, target) ==>
      u.status.Err? && u.bound.None? && u.rewritten.None?
    // the envelope is rewritten exactly on success through the decode path
    ensures u.rewritten.Some? <==> u.status.Ok? && Unpackable(any, target) && !CacheHit(rt, any, target)
    // a panic or a failure before the decoded value is stored touches nothing
    ensures u.status.Panic? ==> u.bound.None? && u.rewritten.None?
    ensures u.status.Err? && u.bound.Some? ==> u.status.error.PackFailed? && u.rewritten.None?
    // on the decode path the stored value has the type bound to the URL,
    // and the rewritten envelope keeps the original URL in place of "/"
    ensures u.bound.Some? && !CacheHit(rt, any, target) ==>
      && Unpackable(any, target) && Known(t, any, target)
      && u.bound.value.typ == ImplsOf(t, target.elemType)[any.value.typeUrl]
    ensures u.rewritten.Some? ==>
      && u.bound.Some?
      && rt.newAnyWithValue(u.bound.value).Success?
      && var n := rt.newAnyWithValue(u.bound.value).value;
         u.rewritten.value == n.(typeUrl := KeptTypeURL(any.value.typeUrl, n.typeUrl))
    // a URL bound to a type that is not a pointer panics; one bound to a
    // pointer type that is not a protobuf message is an error
    ensures Unpackable(any, target) && !CacheHit(rt, any, target) && Known(t, any, target) ==>
      var typ := BoundType(t, any, target);
      && (!typ.Ptr? ==> u == Unpacked(Panic(ElemOfNonPointer(typ)), None, None))
      && (typ.Ptr? && !rt.isProtoMessage(typ) ==> u == Unpacked(Err(CannotUnmarshal(typ)), None, None))
    // a payload that does not decode is an error and touches nothing
    ensures Decodes(t, rt, any, target) && Payload(t, rt, any, target).Failure? ==>
      u == Unpacked(Err(DecodeFailed(Payload(t, rt, any, target).error)), None, None)
    // a decoded payload has its own envelopes unpacked first: a failure there
    // is passed on and touches nothing; otherwise the unpacked message is what
    // is stored, and the call succeeds exactly when it can be re-packed
    ensures Decodes(t, rt, any, target) && Payload(t, rt, any, target).Success? ==>
      var typ := BoundType(t, any, target);
      var nested := UnpackInterfaces(t, rt, Message(typ, Payload(t, rt, any, target).value), fuel);
      && (!nested.status.Ok? ==> u == Unpacked(nested.status, None, None))
      && (nested.status.Ok? && !rt.assignableTo(typ, target.elemType) ==>
            u == Unpacked(Panic(SetNotAssignable(typ, target.elemType)), None, None))
      && (nested.status.Ok? && rt.assignableTo(typ, target.elemType) ==>
            && u.bound == Some(nested.msg)
            && (u.status.Ok? <==> rt.newAnyWithValue(nested.msg).Success?))
    decreases fuel, 1, 0
  {
    if any.None? || any.value.typeUrl == "" then Unpacked(Ok(()), None, None)
    else if target.NonPointer? then Unpacked(Err(NotAPointer(target.t)), None, None)
    else
      var a := any.value;
      var slotType := target.elemType;
      if a.cachedValue.Some? && rt.assignableTo(a.cachedValue.value.typ, slotType) then
        Unpacked(Ok(()), a.cachedValue, None)
      else if slotType !in t.interfaceImpls then Unpacked(Err(NoImplementations(slotType)), None, None)
      else if a.typeUrl !in t.interfaceImpls[slotType] then Unpacked(Err(NoConcreteType(a.typeUrl, slotType)), None, None)
      else
        var typ := t.interfaceImpls[slotType][a.typeUrl];
        if !typ.Ptr? then Unpacked(Panic(ElemOfNonPointer(typ)), None, None)
        else if !rt.isProtoMessage(typ) then Unpacked(Err(CannotUnmarshal(typ)), None, None)
        else match rt.unmarshal(typ, a.value)
          case Failure(e) => Unpacked(Err(DecodeFailed(e)), None, None)
          case Success(body) =>
            var nested := UnpackInterfaces(t, rt, Message(typ, body), fuel);
            if !nested.status.Ok? then Unpacked(nested.status, None, None)
            else if !rt.assignableTo(nested.msg.typ, slotType) then
              Unpacked(Panic(SetNotAssignable(nested.msg.typ, slotType)), None, None)
            else match rt.newAnyWithValue(nested.msg)
              case Failure(e) => Unpacked(Err(PackFailed(e)), Some(nested.msg), None)
              case Success(n) =>
                Unpacked(Ok(()), Some(nested.msg), Some(n.(typeUrl := KeptTypeURL(a.typeUrl, n.typeUrl))))
  }

  /** `UnpackInterfaces`: a message that implements UnpackInterfacesMessage
      has its `Any` fields unpacked; any other message is left alone. */
  function UnpackInterfaces(t: Tables, rt: Runtime, msg: Message, fuel: nat): (n: Nested)
    ensures n.msg.typ == msg.typ
    ensures !rt.unpacksNested(msg.typ) ==> n == Nested(Ok(()), msg)
    // the depth bound is spent: nothing is unpacked
    ensures rt.unpacksNested(msg.typ) && fuel == 0 ==> n == Nested(Err(DepthExceeded), msg)
    // otherwise the fields are unpacked one level deeper, with their status
    ensures rt.unpacksNested(msg.typ) && fuel > 0 ==>
      var fields := UnpackFields(t, rt, msg.body.anys, fuel - 1);
      n == Nested(fields.status, Message(msg.typ, msg.body.(anys := fields.anys)))
    // only the `Any` fields change, each keeping its interface type
    ensures n.msg.body.plain == msg.body.plain && |n.msg.body.anys| == |msg.body.anys|
    ensures forall k :: 0 <= k < |msg.body.anys| ==> n.msg.body.anys[k].iface == msg.body.anys[k].iface
    decreases fuel, 0, 0
  {
    if !rt.unpacksNested(msg.typ) then Nested(Ok(()), msg)
    else if fuel == 0 then Nested(Err(DepthExceeded), msg)
    else
      var fields := UnpackFields(t, rt, msg.body.anys, fuel - 1);
      Nested(fields.status, Message(msg.typ, msg.body.(anys := fields.anys)))
  }

  /** The `UnpackInterfaces` of a message: each `Any` field in order, against
      its own interface type, stopping at the first failure. */
  function UnpackFields(t: Tables, rt: Runtime, anys: seq<AnyField>, fuel: nat): (r: NestedFields)
    ensures |r.anys| == |anys|
    ensures forall k :: 0 <= k < |anys| ==> r.anys[k].iface == anys[k].iface
    decreases fuel, 2, |anys|
  {
    if anys == [] then NestedFields(Ok(()), [])
    else
      var u := Unpack(t, rt, anys[0].any, PointerTo(anys[0].iface), fuel);
      if !u.status.Ok? then NestedFields(u.status, anys)
      else
        var rest := UnpackFields(t, rt, anys[1..], fuel);
        NestedFields(rest.status, [anys[0].(any := Rewrite(anys[0].any, u))] + rest.anys)
  }

  /** When the nested fields all unpack, each field ends up exactly as
      unpacking it on its own leaves it. */
  lemma {:induction false} UnpackFieldsPointwise(t: Tables, rt: Runtime, anys: seq<AnyField>, fuel: nat)
    requires UnpackFields(t, rt, anys, fuel).status.Ok?
    ensures var r := UnpackFields(t, rt, anys, fuel).anys;
      && |r| == |anys|
      && forall k :: 0 <= k < |anys| ==>
           var u := Unpack(t, rt, anys[k].any, PointerTo(anys[k].iface), fuel);
           u.status.Ok? && r[k] == anys[k].(any := Rewrite(anys[k].any, u))
    decreases |anys|
  {
    if anys != [] {
      UnpackFieldsPointwise(t, rt, anys[1..], fuel);
      var r := UnpackFields(t, rt, anys, fuel).anys;
      forall k | 1 <= k < |anys|
        ensures var u := Unpack(t, rt, anys[k].any, PointerTo(anys[k].iface), fuel);
          u.status.Ok? && r[k] == anys[k].(any := Rewrite(anys[k].any, u))
      {
        assert anys[k] == anys[1..][k - 1];
      }
    }
  }

  /** A failure on the first field is returned with every field as it was. */
  lemma UnpackFieldsFirstFailure(t: Tables, rt: Runtime, anys: seq<AnyField>, fuel: nat)
    requires anys != [] && !Unpack(t, rt, anys[0].any, PointerTo(anys[0].iface), fuel).status.Ok?
    ensures UnpackFields(t, rt, anys, fuel) ==
      NestedFields(Unpack(t, rt, anys[0].any, PointerTo(anys[0].iface), fuel).status, anys)
  {
  }

  /** Every field of `anys`, unpacked on its own against its interface
      type, succeeds. */
  predicate FieldsUnpack(t: Tables, rt: Runtime, anys: seq<AnyField>, fuel: nat) {
    forall k :: 0 <= k < |anys| ==> Unpack(t, rt, anys[k].any, PointerTo(anys[k].iface), fuel).status.Ok?
  }

  /** When the fields before position `k` unpack and the field at `k` does
      not, the sequence returns that field's own status: an error or a panic
      of a later field is passed on as it is. */
  lemma {:induction false} UnpackFieldsFailsAt(t: Tables, rt: Runtime, anys: seq<AnyField>, fuel: nat, k: nat)
    requires k < |anys| && FieldsUnpack(t, rt, anys[..k], fuel)
    requires !Unpack(t, rt, anys[k].any, PointerTo(anys[k].iface), fuel).status.Ok?
    ensures UnpackFields(t, rt, anys, fuel).status == Unpack(t, rt, anys[k].any, PointerTo(anys[k].iface), fuel).status
    decreases k
  {
    if k > 0 {
      assert anys[..k][0] == anys[0];
      var before := anys[1..][..k - 1];
      forall j | 0 <= j < |before|
        ensures Unpack(t, rt, before[j].any, PointerTo(before[j].iface), fuel).status.Ok?
      {
        assert before[j] == anys[..k][j + 1];
      }
      assert anys[1..][k - 1] == anys[k];
      UnpackFieldsFailsAt(t, rt, anys[1..], fuel, k - 1);
    }
  }

  /** The sequence of fields unpacks exactly when every field unpacks on
      its own. */
  lemma {:induction false} UnpackFieldsSucceed(t: Tables, rt: Runtime, anys: seq<AnyField>, fuel: nat)
    ensures UnpackFields(t, rt, anys, fuel).status.Ok? <==> FieldsUnpack(t, rt, anys, fuel)
    decreases |anys|
  {
    if anys != [] {
      UnpackFieldsSucceed(t, rt, anys[1..], fuel);
      if FieldsUnpack(t, rt, anys, fuel) {
        assert Unpack(t, rt, anys[0].any, PointerTo(anys[0].iface), fuel).status.Ok?;
        forall k | 0 <= k < |anys| - 1
          ensures Unpack(t, rt, anys[1..][k].any, PointerTo(anys[1..][k].iface), fuel).status.Ok?
        {
          assert anys[1..][k] == anys[k + 1];
        }
      }
      if UnpackFields(t, rt, anys, fuel).status.Ok? {
        forall k | 0 <= k < |anys|
          ensures Unpack(t, rt, anys[k].any, PointerTo(anys[k].iface), fuel).status.Ok?
        {
          if k > 0 {
            assert anys[k] == anys[1..][k - 1];
          }
        }
      }
    }
  }

  /** The converse of `UnpackInterfacesPointwise`: a message that unpacks
      nested envelopes, with depth left, unpacks successfully when each of
      its `Any` fields does on its own, one level deeper. */
  lemma UnpackInterfacesSucceeds(t: Tables, rt: Runtime, msg: Message, fuel: nat)
    requires rt.unpacksNested(msg.typ) && fuel > 0 && FieldsUnpack(t, rt, msg.body.anys, fuel - 1)
    ensures UnpackInterfaces(t, rt, msg, fuel).status.Ok?
  {
    UnpackFieldsSucceed(t, rt, msg.body.anys, fuel - 1);
  }

  /** After a nested unpack that succeeds, the message keeps its type and
      plain fields, and each `Any` field is exactly what unpacking it on its
      own, one level deeper, leaves it. */
  lemma UnpackInterfacesPointwise(t: Tables, rt: Runtime, msg: Message, fuel: nat)
    requires rt.unpacksNested(msg.typ) && UnpackInterfaces(t, rt, msg, fuel).status.Ok?
    ensures fuel > 0
    ensures var m := UnpackInterfaces(t, rt, msg, fuel).msg;
      forall k :: 0 <= k < |msg.body.anys| ==>
        var f := msg.body.anys[k];
        var u := Unpack(t, rt, f.any, PointerTo(f.iface), fuel - 1);
        u.status.Ok? && m.body.anys[k] == f.(any := Rewrite(f.any, u))
  {
    UnpackFieldsPointwise(t, rt, msg.body.anys, fuel - 1);
  }

  /** What `UnpackAny` stores after decoding the payload: a message of the
      bound type with the payload's plain fields, whose `Any` fields are the
      payload's own, each unpacked one level deeper when the type unpacks
      nested envelopes, and left as decoded when it does not. */
  lemma UnpackStoresDecodedPayload(t: Tables, rt: Runtime, any: Option<AnyData>, target: TargetType, fuel: nat)
    requires Decodes(t, rt, any, target) && Unpack(t, rt, any, target, fuel).bound.Some?
    ensures Payload(t, rt, any, target).Success?
    ensures var m := Unpack(t, rt, any, target, fuel).bound.value;
      var body := Payload(t, rt, any, target).value;
      && m.typ == BoundType(t, any, target)
      && m.body.plain == body.plain && |m.body.anys| == |body.anys|
      && (!rt.unpacksNested(m.typ) ==> m.body == body)
      && (rt.unpacksNested(m.typ) ==>
            && fuel > 0
            && forall k :: 0 <= k < |body.anys| ==>
                 var u := Unpack(t, rt, body.anys[k].any, PointerTo(body.anys[k].iface), fuel - 1);
                 u.status.Ok? && m.body.anys[k] == body.anys[k].(any := Rewrite(body.anys[k].any, u)))
  {
    var msg := Message(BoundType(t, any, target), Payload(t, rt, any, target).value);
    if rt.unpacksNested(msg.typ) {
      UnpackInterfacesPointwise(t, rt, msg, fuel);
    }
  }

  /** More fuel changes nothing unless the depth bound was what failed: the
      fuel only cuts off recursion the source would continue. */
  lemma {:induction false} UnpackFuelMonotone(t: Tables, rt: Runtime, any: Option<AnyData>, target: TargetType, fuel: nat)
    requires Unpack(t, rt, any, target, fuel).status != Err(DepthExceeded)
    ensures Unpack(t, rt, any, target, fuel + 1) == Unpack(t, rt, any, target, fuel)
    decreases fuel, 1, 0
  {
    if Unpackable(any, target) && !CacheHit(rt, any, target) && Known(t, any, target) {
      var typ := t.interfaceImpls[target.elemType][any.value.typeUrl];
      if typ.Ptr? && rt.isProtoMessage(typ) && rt.unmarshal(typ, any.value.value).Success? {
        UnpackInterfacesFuelMonotone(t, rt, Message(typ, rt.unmarshal(typ, any.value.value).value), fuel);
      }
    }
  }

  lemma {:induction false} UnpackInterfacesFuelMonotone(t: Tables, rt: Runtime, msg: Message, fuel: nat)
    requires UnpackInterfaces(t, rt, msg, fuel).status != Err(DepthExceeded)
    ensures UnpackInterfaces(t, rt, msg, fuel + 1) == UnpackInterfaces(t, rt, msg, fuel)
    decreases fuel, 0, 0
  {
    if rt.unpacksNested(msg.typ) && fuel > 0 {
      UnpackFieldsFuelMonotone(t, rt, msg.body.anys, fuel - 1);
    }
  }

  lemma {:induction false} UnpackFieldsFuelMonotone(t: Tables, rt: Runtime, anys: seq<AnyField>, fuel: nat)
    requires UnpackFields(t, rt, anys, fuel).status != Err(DepthExceeded)
    ensures UnpackFields(t, rt, anys, fuel + 1) == UnpackFields(t, rt, anys, fuel)
    decreases fuel, 2, |anys|
  {
    if anys != [] {
      UnpackFuelMonotone(t, rt, anys[0].any, PointerTo(anys[0].iface), fuel);
      if Unpack(t, rt, anys[0].any, PointerTo(anys[0].iface), fuel).status.Ok? {
        UnpackFieldsFuelMonotone(t, rt, anys[1..], fuel);
      }
    }
  }

  /** In a consistent registry storing the decoded value into the target
      never panics: every type bound under an interface is assignable to it. */
  lemma {:induction false} UnpackNeverSetPanics(t: Tables, rt: Runtime, any: Option<AnyData>, target: TargetType, fuel: nat)
    requires Consistent(t, rt)
    ensures !Unpack(t, rt, any, target, fuel).status.Panic? ||
            Unpack(t, rt, any, target, fuel).status.reason.ElemOfNonPointer?
    decreases fuel, 1, 0
  {
    if Unpackable(any, target) && !CacheHit(rt, any, target) && Known(t, any, target) {
      var typ := t.interfaceImpls[target.elemType][any.value.typeUrl];
      if typ.Ptr? && rt.isProtoMessage(typ) && rt.unmarshal(typ, any.value.value).Success? {
        UnpackInterfacesNeverSetPanics(t, rt, Message(typ, rt.unmarshal(typ, any.value.value).value), fuel);
      }
    }
  }

  lemma {:induction false} UnpackInterfacesNeverSetPanics(t: Tables, rt: Runtime, msg: Message, fuel: nat)
    requires Consistent(t, rt)
    ensures !UnpackInterfaces(t, rt, msg, fuel).status.Panic? ||
            UnpackInterfaces(t, rt, msg, fuel).status.reason.ElemOfNonPointer?
    decreases fuel, 0, 0
  {
    if rt.unpacksNested(msg.typ) && fuel > 0 {
      UnpackFieldsNeverSetPanics(t, rt, msg.body.anys, fuel - 1);
    }
  }

  lemma {:induction false} UnpackFieldsNeverSetPanics(t: Tables, rt: Runtime, anys: seq<AnyField>, fuel: nat)
    requires Consistent(t, rt)
    ensures !UnpackFields(t, rt, anys, fuel).status.Panic? ||
            UnpackFields(t, rt, anys, fuel).status.reason.ElemOfNonPointer?
    decreases fuel, 2, |anys|
  {
    if anys != [] {
      UnpackNeverSetPanics(t, rt, anys[0].any, PointerTo(anys[0].iface), fuel);
      if Unpack(t, rt, anys[0].any, PointerTo(anys[0].iface), fuel).status.Ok? {
        UnpackFieldsNeverSetPanics(t, rt, anys[1..], fuel);
      }
    }
  }

  /** Unpacking reads the per-interface tables only: two registries that
      agree on them unpack every envelope alike, whatever their global
      type-URL tables hold. */
  lemma {:induction false} UnpackReadsOnlyInterfaceImpls(t1: Tables, t2: Tables, rt: Runtime, any: Option<AnyData>, target: TargetType, fuel: nat)
    requires t1.interfaceImpls == t2.interfaceImpls
    ensures Unpack(t1, rt, any, target, fuel) == Unpack(t2, rt, any, target, fuel)
    decreases fuel, 1, 0
  {
    if Unpackable(any, target) && !CacheHit(rt, any, target) && Known(t1, any, target) {
      var typ := t1.interfaceImpls[target.elemType][any.value.typeUrl];
      if typ.Ptr? && rt.isProtoMessage(typ) && rt.unmarshal(typ, any.value.value).Success? {
        UnpackInterfacesReadsOnlyInterfaceImpls(t1, t2, rt, Message(typ, rt.unmarshal(typ, any.value.value).value), fuel);
      }
    }
  }

  lemma {:induction false} UnpackInterfacesReadsOnlyInterfaceImpls(t1: Tables, t2: Tables, rt: Runtime, msg: Message, fuel: nat)
    requires t1.interfaceImpls == t2.interfaceImpls
    ensures UnpackInterfaces(t1, rt, msg, fuel) == UnpackInterfaces(t2, rt, msg, fuel)
    decreases fuel, 0, 0
  {
    if rt.unpacksNested(msg.typ) && fuel > 0 {
      UnpackFieldsReadsOnlyInterfaceImpls(t1, t2, rt, msg.body.anys, fuel - 1);
    }
  }

  lemma {:induction false} UnpackFieldsReadsOnlyInterfaceImpls(t1: Tables, t2: Tables, rt: Runtime, anys: seq<AnyField>, fuel: nat)
    requires t1.interfaceImpls == t2.interfaceImpls
    ensures UnpackFields(t1, rt, anys, fuel) == UnpackFields(t2, rt, anys, fuel)
    decreases fuel, 2, |anys|
  {
    if anys != [] {
      UnpackReadsOnlyInterfaceImpls(t1, t2, rt, anys[0].any, PointerTo(anys[0].iface), fuel);
      UnpackFieldsReadsOnlyInterfaceImpls(t1, t2, rt, anys[1..], fuel);
    }
  }
}
